=== FILE: README.md ===
# ExitCall call-session core, modelled in Dafny

ExitCall stages a fake incoming phone call. Under its three React screens is
a small sequential core, and this project models it:

- **Home** (`home.dfy`, module `Home`). It loads the stored settings, reading
  falsy fields as the defaults Mom / 5 s / Classic iPhone. It saves them as an
  upsert. It has three select handlers and the custom-ringtone upload. Its
  Start handler creates an `incoming` Session and arms one deferred
  navigation to the incoming-call screen.
- **Incoming call** (`incoming_call.dfy`, module `IncomingCall`). The looping
  ringtone takes its source from the `ringtoneUrl` parameter or a bundled
  default. Accept writes `active` and Decline writes `ended` with
  `endedTime`. The ringtone is stopped and rewound whenever the screen is left.
- **In call** (`in_call.dfy`, module `InCall`). This covers `formatTime`, the
  one-second elapsed counter, the mute and speaker toggles, and End Call.
- **The three screens as one machine** (`call_flow.dfy`, module `CallFlow`).
  The state is immutable and holds:
  - the record store;
  - the current screen with its local state;
  - the URL query;
  - the incoming screen's audio element;
  - the pending timer;
  - a millisecond clock.

  Every handler is a pure transition. `Scenario` (`scenario.dfy`) traces one
  accepted call state by state.

Supporting modules:
- `Wrappers` holds Option and Result.
- `Records` is the abstract record store, with `list`/`create`/`update` for
  Settings and Session.
- `Navigation` holds pages and decoded queries.
- `Text` holds `startsWith`, base-10 `toString`, `padStart`, and reading
  digits back.

The handlers never check a session's prior status. Accept writes `active`
and Decline/End Call write `ended`, whatever was stored before
(`IncomingCall.AcceptHasNoStatusGuard`). That statuses only move forward is
therefore proved as a property of the reachable states (`CallFlow.Inv`), not
imposed as a guard.

Inputs the program takes from its environment are parameters of the
transitions:
- the id the store assigns to a created record (`freshId`);
- the timestamp `new Date().toISOString()` (`now`, an opaque string);
- the upload service's answer (`uploaded`: a URL, or `None` when it throws);
- the passage of time (`Wait(ms)`);
- each firing of the in-call interval (`Tick`).

A store call whose promise rejects is a `Failure` result. Creating under an
empty or taken id fails, and so does updating an unknown id. Then the rest
of the async handler is skipped, so no navigation follows a failed write.

The handlers behave as follows:
- Accept, Decline and End Call write their status unconditionally; no
  write is rejected because of the session's prior status.
- Every save sends the full `(selectedCaller, delaySeconds, ringtone)` triple.
- The built-in ringtone choice does not affect playback. The incoming screen
  plays the custom URL or the bundled ring.
- Playback is paused by the handler and then paused and rewound again by the
  unmount cleanup.
- A session write the network refuses (the event's `refused` flag) rejects
  the awaited promise: the screen stays, and the user may tap again.

## Model

| member | source | states |
|---|---|---|
| Home.Effective | Pages/Home.js:32-37 | each stored field that is truthy is shown as is, and each falsy one (null, "", 0) is replaced by its default; with no record the initial state Mom / 5 / Classic iPhone stays; the result is always all-truthy |
| Home.EmptyStoreShowsDefaults | Pages/Home.js:18-20 | an empty settings list shows Mom, 5, Classic iPhone; a stored delay of 0 reads as 5 |
| Home.Save | Pages/Home.js:40-51 | upsert: with a loaded id exactly the records carrying it are patched and the count is unchanged; otherwise exactly one record is appended under the new id; sessions untouched; at most one settings record is kept |
| Home.SaveThenLoad | Pages/Home.js:24-47 | after a save, loading (first record of the list) returns the saved caller, delay and ringtone, and the custom URL from the patch, or else the one stored before |
| Home.SavedSelectionReloads | Pages/Home.js:32-51 | the refetch and sync that follow a successful save show exactly the selection that was saved |
| Home.SelectCaller | Pages/Home.js:53-56 | the stored record afterwards holds the new caller with the current delay and ringtone, and keeps its custom ringtone URL; the screen shows that triple even if the save fails |
| Home.SelectDelay | Pages/Home.js:58-61 | the stored record afterwards holds the new delay with the current caller and ringtone, and keeps its custom ringtone URL |
| Home.SelectRingtone | Pages/Home.js:63-66 | the stored record afterwards holds the new ringtone with the current caller and delay, and keeps its custom ringtone URL |
| Home.Upload | Pages/Home.js:68-92 | no file, a MIME type not starting with `audio/`, or a failing upload changes nothing; otherwise the current triple is saved together with `customRingtoneUrl = file_url` |
| Home.Load | Pages/Home.js:26-29 | the loaded settings are the first listed record, or null when the list is empty; with at most one record stored it is the whole table |
| Home.IncomingTarget | Pages/Home.js:104-105 | the deferred navigation goes to the incoming screen with the session id and caller (which the screen then shows as is), and with `ringtoneUrl` exactly when a truthy custom URL is stored |
| Text.StartsWithSplit | Pages/Home.js:72 | `startsWith(prefix)` holds exactly when the text is the prefix followed by the rest |
| Text.PadStart | Pages/InCall.js:28 | `padStart(width, fill)` keeps the text as a suffix, pads to the width with `fill`, and leaves text already as wide unchanged |
| Home.TimeoutDelay | Pages/Home.js:103-106 | the wait `setTimeout` applies to `delaySeconds*1000`: below 2^31; exact on [0, 2^31) ms; 0 on [-2^31, 0); for every other input either 0, when the value modulo 2^32 is 0 or at least 2^31, or congruent to the input modulo 2^32 |
| Home.Start | Pages/Home.js:94-107 | with the button enabled: one new `incoming` session for the shown caller, then one timer due `TimeoutDelay(delaySeconds*1000)` ms later that targets IncomingCall with `sessionId` and `caller`, and `ringtoneUrl` if and only if a truthy custom URL is stored; a failed create arms nothing; a disabled button does nothing |
| Navigation.CallerParam | Pages/IncomingCall.js:12 | the caller shown is the `caller` parameter when truthy, otherwise `Unknown` |
| IncomingCall.Ring | Pages/IncomingCall.js:16-21 | the audio plays `ringtoneUrl` when present, else the bundled ring, looped at volume 0.5 from position 0 |
| IncomingCall.Cleanup | Pages/IncomingCall.js:33-36 | leaving the screen stops playback and rewinds to position 0 |
| IncomingCall.Accept | Pages/IncomingCall.js:39-45 | audio paused; with a truthy session id that session alone becomes `active` and navigation to InCall (same id and caller) follows only once the write succeeded; a refused write or an unknown id changes nothing and stays; without an id nothing is written |
| IncomingCall.Decline | Pages/IncomingCall.js:47-56 | audio paused; with a truthy session id one update writes `ended` and `endedTime` together before navigating Home; a refused write or an unknown id changes nothing and stays |
| IncomingCall.AcceptHasNoStatusGuard | Pages/IncomingCall.js:39-43 | Accept on an already ended session still writes `active`: the code has no transition guard |
| IncomingCall.AcceptWithoutSessionForwardsNull | Pages/IncomingCall.js:41-44 | with no `sessionId` parameter Accept writes nothing and passes the text "null" on as the in-call session id |
| InCall.Tick | Pages/InCall.js:18-23 | each interval firing adds exactly 1 to the seconds and leaves the toggles alone |
| InCall.TicksFromEntry | Pages/InCall.js:14-21 | n firings after entry the counter reads n with both toggles off |
| InCall.ToggleMute | Pages/InCall.js:42 | flips `muted` and nothing else |
| InCall.ToggleSpeaker | Pages/InCall.js:44 | flips `speaker` and nothing else |
| InCall.TogglesAreInvolutions | Pages/InCall.js:42-44 | toggling twice restores the state; the two toggles commute |
| InCall.Fields | Pages/InCall.js:25-27 | minutes and seconds satisfy `secs < 60` and `mins*60 + secs = t` |
| InCall.Field2 | Pages/InCall.js:28 | each field is at least two digit characters, exactly two below 100, and reads back as the number it shows |
| InCall.Field2IsPadStart | Pages/InCall.js:28 | each field is `n.toString().padStart(2, '0')` |
| InCall.FormatTime | Pages/InCall.js:25-28 | the display is at least five characters with ':' third from the end, and exactly five below 100 minutes |
| InCall.FormatTimeFields | Pages/InCall.js:25-28 | the text before ':' reads as `t div 60` and is at least two digits; the two digits after it read as `t mod 60` |
| InCall.FormatParseRoundTrip | Pages/InCall.js:25-28 | reading the display back gives the original count |
| InCall.FormatTimeInjective | Pages/InCall.js:25-28 | different counts never show the same text |
| InCall.FormatTimeShortForm | Pages/InCall.js:28 | for `0 <= t < 6000` the display has length 5 with ':' at index 2 |
| InCall.EndCall | Pages/InCall.js:31-39 | with a truthy session id one awaited update writes `ended` and `endedTime` together and then navigates Home; a refused write or an unknown id stays with the store unchanged; without an id just Home |
| CallFlow.StepKeepsFlow | Pages/IncomingCall.js:39-56 | from a reachable state every transition keeps the invariant, under which `endedTime` is present exactly on `ended` sessions, audio plays only on the incoming screen, and the incoming and in-call screens show their session's stored caller; no stored session's status goes back, its start time and caller never change, and an ended session is frozen; new sessions are `incoming` |
| CallFlow.RunKeepsFlow | Pages/IncomingCall.js:39-56 | the same over any sequence of events |
| CallFlow.StatusMonotoneAlongRun | Pages/IncomingCall.js:42-53 | along a run from app start, any later state holds each session at the same or a later status (incoming, active, ended) |
| CallFlow.ScreenFlow | Pages/Home.js:103-106 | screens follow Home, IncomingCall, InCall, Home: only the timer opens the incoming screen, only Accept or Decline leave it, only End Call leaves the call |
| CallFlow.LeavingIncomingStopsRinger | Pages/IncomingCall.js:30-56 | every exit from the incoming screen is an Accept or Decline whose write went through, and leaves the audio stopped at position 0; Accept leaves the session `active` and enters the call screen with the counter at 0 and both toggles off, Decline leaves it `ended` with its `endedTime` |
| CallFlow.Navigate | Pages/IncomingCall.js:33-36 | leaving the incoming screen pauses and rewinds its audio; entering Home mounts it afresh from the store, entering the call screen starts at 0 seconds with mute and speaker off, entering the incoming screen starts the ringtone for the new query; store, timer and clock carry over |
| Home.Mount | Pages/Home.js:18-38 | entering Home shows Start enabled again and an all-truthy selection: Mom / 5 / Classic iPhone with nothing stored, otherwise the first record read through its defaults |
| Text.Decimal | Pages/InCall.js:28 | `toString()` of a non-negative integer: at least one digit, one digit exactly below 10, "0" for 0 and no leading zero otherwise |
| CallFlow.RefusedAnswerStays | Pages/IncomingCall.js:39-56 | a refused Accept or Decline keeps the incoming screen with the store unchanged and the ringtone paused where it was; a second Accept that goes through opens the call with the session `active` |
| CallFlow.RefusedEndStays | Pages/InCall.js:31-39 | a refused End Call changes nothing; one that goes through goes Home with the session `ended` at that time |
| CallFlow.TicksCount | Pages/InCall.js:14-23 | n interval firings on the call screen raise the counter by exactly n and change nothing else; from the entry state the screen reads n |
| CallFlow.Step | Pages/InCall.js:41-48 | only Wait moves the clock; Wait, the toggles and the ticks never write to the store; a tap on a control the current screen does not show changes nothing |
| CallFlow.StartArmsOneTimer | Pages/Home.js:97-106 | Start adds exactly one session, `incoming`, for the shown caller, and arms one timer due `TimeoutDelay(delaySeconds*1000)` ms later |
| CallFlow.TimerFiresWhenDue | Pages/Home.js:103-106 | the timer fires when the clock reaches its due time and not before; firing opens the incoming screen with its query, starts the ringtone, and clears it |
| CallFlow.OnlyStartArms | Pages/Home.js:207-210 | no step other than Start on an enabled button arms a timer |
| Scenario.AcceptedCallEnds | Pages/Home.js:94-107 | Start, 5 s, Accept, a tick, End Call on an empty store leaves one session `ended` at the end time and the app on Home |

## Left out

- JSX rendering, framer-motion animations, the pulse interval, toasts and the inert keypad/add call/FaceTime/contacts buttons: they are presentation only.
- The network client, react-query caching and invalidation timing: a save's refetch and sync are applied at once. A failed `list` is not modelled, so loading never fails.
- Network failures of Settings writes and of `Session.create`: those calls fail only on a rejected id. A refused `Session.update` is modelled by the `refused` flag of Accept, Decline and End Call.
- The `UploadFile` call itself: it is the `uploaded` parameter. The `uploading` flag only disables the input during the await.
- Real audio: the element is reduced to source, loop, volume, playing and position. A failing `play()` is not modelled.
- `encodeURIComponent`, `window.location` and query parsing: they are an exact encode/decode pair, so an unencoded caller containing `&` is not modelled.
- Browser back/forward and typed URLs: screens are entered only through the handlers' navigations. CallFlow.StatusMonotoneAlongRun depends on this: going Back to the incoming screen after Decline and then tapping Accept would write `active` on an ended session, because the write is unguarded (IncomingCall.AcceptHasNoStatusGuard).
- Concurrency, such as double taps racing store writes: the handlers are atomic transitions.
- `handleRingtoneSelect`: no rendered control calls it, so the machine has no event for it. The handler itself is modelled.
- The in-call interval: its firings are the explicit `Tick` event rather than being derived from the clock.
- JavaScript numbers are modelled as unbounded integers: `toString`'s exponent form from 1e21 and lost increments past 2^53 are not modelled.
- InCall.FormatTime: defined on non-negative counts only, because the counter starts at 0 and only increases. JavaScript's behaviour for negative arguments is not modelled.
- Timer cancellation and stale-session expiry: the code has neither.

=== FILE: call_flow.dfy ===
/** The three screens as one machine. A state holds the record store, the
    current screen with its local state, the current URL's query, the
    incoming screen's audio element, the pending deferred navigation and a
    millisecond clock; every handler is a pure transition. The handlers
    never check a session's status before writing it; that statuses only
    move forward is a property of the states the screens can reach. */
module CallFlow {
  import opened Wrappers
  import opened Records
  import opened Navigation
  import Home
  import IncomingCall
  import InCall

  datatype Screen =
    | HomeScreen(home: Home.HomeView)
    | IncomingScreen
    | InCallScreen(call: InCall.CallView)

  datatype State = State(
    store: Store,
    screen: Screen,
    query: Query,
    ringer: Option<IncomingCall.Audio>,
    pending: Option<Home.Timer>,
    clock: int)

  predicate AudioPlaying(s: State) {
    s.ringer.Some? && s.ringer.value.playing
  }

  /** What can happen next: a tap on a control of the current screen (a
      select button is given by its position in its list), time passing, or
      one firing of the in-call interval. `freshId` is the id the store
      would assign to a record created by the event, `now` the timestamp,
      and `refused` says whether the network refuses the event's session write. */
  datatype Event =
    | PickCaller(button: nat, freshId: string)
    | PickDelay(button: nat, freshId: string)
    | UploadRingtone(file: Option<Home.File>, uploaded: Option<string>, freshId: string)
    | StartCall(freshId: string, now: string)
    | Wait(ms: nat)
    | AcceptCall(refused: bool)
    | DeclineCall(now: string, refused: bool)
    | EndCall(now: string, refused: bool)
    | ToggleMute
    | ToggleSpeaker
    | Tick

  /** The app opened on Home over an existing store. */
  function Init(st: Store): State {
    State(st, HomeScreen(Home.Mount(st)), NoQuery, None, None, 0)
  }

  /** Leaving the current screen runs its cleanup (the incoming screen
      stops and rewinds its audio); entering `loc` mounts the new screen. */
  function Navigate(s: State, st: Store, loc: Location): (s': State)
    ensures s'.store == st && s'.query == loc.query && s'.pending == s.pending && s'.clock == s.clock
    ensures loc.page == HomePage ==> s'.screen == HomeScreen(Home.Mount(st))
    ensures loc.page == InCallPage ==> s'.screen == InCallScreen(InCall.Entered)
    ensures loc.page == IncomingCallPage ==> s'.screen == IncomingScreen && s'.ringer == Some(IncomingCall.Ring(loc.query))
    ensures loc.page != IncomingCallPage && s.screen.IncomingScreen? && s.ringer.Some? ==>
              s'.ringer == Some(IncomingCall.Cleanup(s.ringer.value))
    ensures loc.page != IncomingCallPage && !s.screen.IncomingScreen? ==> s'.ringer == s.ringer
  {
    var left := if s.screen.IncomingScreen? && s.ringer.Some? then Some(IncomingCall.Cleanup(s.ringer.value)) else s.ringer;
    match loc.page
    case HomePage => State(st, HomeScreen(Home.Mount(st)), loc.query, left, s.pending, s.clock)
    case IncomingCallPage => State(st, IncomingScreen, loc.query, Some(IncomingCall.Ring(loc.query)), s.pending, s.clock)
    case InCallPage => State(st, InCallScreen(InCall.Entered), loc.query, left, s.pending, s.clock)
  }

  /** The end of an Accept or Decline: its store writes, then its navigation if any. */
  function Respond(s: State, r: IncomingCall.Response): State {
    var s1 := s.(ringer := Some(r.audio), store := r.store);
    if r.next.Some? then Navigate(s1, r.store, r.next.value) else s1
  }

  function OnHome(s: State, r: Home.HomeResult): State
    requires s.screen.HomeScreen?
  {
    s.(store := r.store, screen := HomeScreen(r.view))
  }

  /** One event. Only Wait moves the clock; Wait, the toggles and the
      ticks never write to the store; a tap on a control the current screen
      does not show changes nothing. */
  function Step(s: State, e: Event): (r: State)
    ensures r.clock == s.clock + (if e.Wait? then e.ms else 0)
    ensures e.Wait? || e.ToggleMute? || e.ToggleSpeaker? || e.Tick? ==> r.store == s.store
    ensures (e.PickCaller? || e.PickDelay? || e.UploadRingtone? || e.StartCall?) && !s.screen.HomeScreen? ==> r == s
    ensures (e.AcceptCall? || e.DeclineCall?) && !s.screen.IncomingScreen? ==> r == s
    ensures (e.EndCall? || e.ToggleMute? || e.ToggleSpeaker? || e.Tick?) && !s.screen.InCallScreen? ==> r == s
  {
    match e
    case PickCaller(b, id) =>
      if s.screen.HomeScreen? && b < |Home.Callers| then
        OnHome(s, Home.SelectCaller(s.screen.home, s.store, Home.Callers[b], id))
      else s
    case PickDelay(b, id) =>
      if s.screen.HomeScreen? && b < |Home.Delays| then
        OnHome(s, Home.SelectDelay(s.screen.home, s.store, Home.Delays[b], id))
      else s
    case UploadRingtone(f, u, id) =>
      if s.screen.HomeScreen? then OnHome(s, Home.Upload(s.screen.home, s.store, f, u, id))
      else s
    case StartCall(id, now) =>
      if s.screen.HomeScreen? then
        var r := Home.Start(s.screen.home, s.store, s.clock, id, now);
        s.(store := r.store, screen := HomeScreen(r.view), pending := if r.timer.Some? then r.timer else s.pending)
      else s
    case Wait(ms) =>
      var s1 := s.(clock := s.clock + ms,
                   ringer := if s.ringer.Some? then Some(IncomingCall.Play(s.ringer.value, ms)) else None);
      if s1.pending.Some? && s1.pending.value.due <= s1.clock then
        Navigate(s1.(pending := None), s1.store, s1.pending.value.target)
      else s1
    case AcceptCall(refused) =>
      if s.screen.IncomingScreen? && s.ringer.Some? then
        Respond(s, IncomingCall.Accept(s.query, s.ringer.value, s.store, refused))
      else s
    case DeclineCall(now, refused) =>
      if s.screen.IncomingScreen? && s.ringer.Some? then
        Respond(s, IncomingCall.Decline(s.query, s.ringer.value, s.store, now, refused))
      else s
    case EndCall(now, refused) =>
      if s.screen.InCallScreen? then
        var r := InCall.EndCall(s.query, s.store, now, refused);
        if r.next.Some? then Navigate(s, r.store, r.next.value) else s.(store := r.store)
      else s
    case ToggleMute =>
      if s.screen.InCallScreen? then s.(screen := InCallScreen(InCall.ToggleMute(s.screen.call))) else s
    case ToggleSpeaker =>
      if s.screen.InCallScreen? then s.(screen := InCallScreen(InCall.ToggleSpeaker(s.screen.call))) else s
    case Tick =>
      if s.screen.InCallScreen? then s.(screen := InCallScreen(InCall.Tick(s.screen.call))) else s
  }

  function Run(s: State, es: seq<Event>): State
    decreases |es|
  {
    if |es| == 0 then s else Run(Step(s, es[0]), es[1..])
  }

  // ---------------------------------------------------------------------
  // The invariant of reachable states

  /** `endedTime` is present exactly when the status is 'ended'. */
  predicate SessionWellFormed(x: Session) {
    x.endedTime.Some? <==> x.status == Ended
  }

  predicate StoreInv(st: Store) {
    && SingleSettings(st)
    && forall id :: id in st.sessions ==> SessionWellFormed(st.sessions[id])
  }

  /** The query names a stored session whose status is `status`, and the
      caller the screen shows from the query is that session's caller. */
  predicate QueriedSession(st: Store, q: Query, status: Status) {
    && Truthy(q.sessionId) && q.sessionId.value in st.sessions
    && st.sessions[q.sessionId.value].status == status
    && CallerParam(q) == st.sessions[q.sessionId.value].caller
  }

  predicate TimerInv(st: Store, t: Home.Timer) {
    t.target.page == IncomingCallPage && QueriedSession(st, t.target.query, Incoming)
  }

  predicate Inv(s: State) {
    && StoreInv(s.store)
    && (AudioPlaying(s) ==> s.screen.IncomingScreen?)
    && match s.screen
       case HomeScreen(h) =>
         && Home.Displayable(h.selection)
         && (s.pending.Some? ==> h.starting && TimerInv(s.store, s.pending.value))
       case IncomingScreen =>
         s.pending.None? && s.ringer.Some? && QueriedSession(s.store, s.query, Incoming)
       case InCallScreen(_) =>
         s.pending.None? && QueriedSession(s.store, s.query, Active)
  }

  /** How one stored session may differ between two moments: same start
      time and caller, a status no earlier, and nothing changes once ended. */
  predicate SessionStep(a: Session, b: Session) {
    && b.startTime == a.startTime && b.caller == a.caller
    && Rank(a.status) <= Rank(b.status)
    && (a.status == Ended ==> b == a)
  }

  predicate Advances(st: Store, st': Store) {
    forall id :: id in st.sessions ==> id in st'.sessions && SessionStep(st.sessions[id], st'.sessions[id])
  }

  /** Sessions that appear are 'incoming' with no `endedTime`. */
  predicate NewAreIncoming(st: Store, st': Store) {
    forall id :: id in st'.sessions && id !in st.sessions ==>
      st'.sessions[id].status == Incoming && st'.sessions[id].endedTime.None?
  }

  lemma AdvancesTransitive(a: Store, b: Store, c: Store)
    requires Advances(a, b) && Advances(b, c)
    ensures Advances(a, c)
  {
  }

  lemma InitInv(st: Store)
    requires StoreInv(st)
    ensures Inv(Init(st))
  {
  }

  // ---------------------------------------------------------------------
  // Each kind of step keeps the invariant and only moves statuses forward

  lemma HomeEditStep(s: State, e: Event)
    requires Inv(s)
    requires e.PickCaller? || e.PickDelay? || e.UploadRingtone?
    ensures Inv(Step(s, e))
    ensures Step(s, e).store.sessions == s.store.sessions
  {
  }

  lemma StartStep(s: State, id: string, now: string)
    requires Inv(s)
    ensures Inv(Step(s, StartCall(id, now)))
    ensures Advances(s.store, Step(s, StartCall(id, now)).store)
    ensures NewAreIncoming(s.store, Step(s, StartCall(id, now)).store)
  {
    if s.screen.HomeScreen? && !s.screen.home.starting && id != "" && id !in s.store.sessions {
      var r := Home.Start(s.screen.home, s.store, s.clock, id, now);
      assert r.store.sessions[id].status == Incoming;
      assert TimerInv(r.store, r.timer.value);
    }
  }

  lemma WaitStep(s: State, ms: nat)
    requires Inv(s)
    ensures Inv(Step(s, Wait(ms)))
    ensures Step(s, Wait(ms)).store == s.store
  {
  }

  lemma AcceptStep(s: State, refused: bool)
    requires Inv(s)
    ensures Inv(Step(s, AcceptCall(refused)))
    ensures Advances(s.store, Step(s, AcceptCall(refused)).store)
    ensures Step(s, AcceptCall(refused)).store.sessions.Keys == s.store.sessions.Keys
  {
    if s.screen.IncomingScreen? && !refused {
      var id := s.query.sessionId.value;
      var r := IncomingCall.Accept(s.query, s.ringer.value, s.store, refused);
      assert r.store.sessions[id].status == Active;
      assert r.next.value.query.sessionId == Some(id);
      assert r.next.value.query.caller == Some(CallerParam(s.query));
    }
  }

  lemma DeclineStep(s: State, now: string, refused: bool)
    requires Inv(s)
    ensures Inv(Step(s, DeclineCall(now, refused)))
    ensures Advances(s.store, Step(s, DeclineCall(now, refused)).store)
    ensures Step(s, DeclineCall(now, refused)).store.sessions.Keys == s.store.sessions.Keys
  {
  }

  lemma EndStep(s: State, now: string, refused: bool)
    requires Inv(s)
    ensures Inv(Step(s, EndCall(now, refused)))
    ensures Advances(s.store, Step(s, EndCall(now, refused)).store)
    ensures Step(s, EndCall(now, refused)).store.sessions.Keys == s.store.sessions.Keys
  {
  }

  /** One step from a reachable state keeps the invariant (so `endedTime`
      is present exactly on ended sessions and no audio plays off the
      incoming screen); no stored session moves back, changes its start
      time or caller, or changes at all once ended; new sessions are 'incoming'. */
  lemma StepKeepsFlow(s: State, e: Event)
    requires Inv(s)
    ensures Inv(Step(s, e))
    ensures Advances(s.store, Step(s, e).store)
    ensures NewAreIncoming(s.store, Step(s, e).store)
  {
    match e
    case PickCaller(_, _) => HomeEditStep(s, e);
    case PickDelay(_, _) => HomeEditStep(s, e);
    case UploadRingtone(_, _, _) => HomeEditStep(s, e);
    case StartCall(id, now) => StartStep(s, id, now);
    case Wait(ms) => WaitStep(s, ms);
    case AcceptCall(refused) => AcceptStep(s, refused);
    case DeclineCall(now, refused) => DeclineStep(s, now, refused);
    case EndCall(now, refused) => EndStep(s, now, refused);
    case ToggleMute =>
    case ToggleSpeaker =>
    case Tick =>
  }

  /** Any run from a reachable state ends in a reachable state, and every
      session stored at its start has only moved forward by its end. */
  lemma {:induction false} RunKeepsFlow(s: State, es: seq<Event>)
    requires Inv(s)
    ensures Inv(Run(s, es))
    ensures Advances(s.store, Run(s, es).store)
    decreases |es|
  {
    if |es| > 0 {
      StepKeepsFlow(s, es[0]);
      RunKeepsFlow(Step(s, es[0]), es[1..]);
      AdvancesTransitive(s.store, Step(s, es[0]).store, Run(Step(s, es[0]), es[1..]).store);
    }
  }

  lemma {:induction false} RunConcat(s: State, a: seq<Event>, b: seq<Event>)
    ensures Run(s, a + b) == Run(Run(s, a), b)
    decreases |a|
  {
    if |a| > 0 {
      assert (a + b)[0] == a[0];
      assert (a + b)[1..] == a[1..] + b;
      RunConcat(Step(s, a[0]), a[1..], b);
    } else {
      assert a + b == b;
    }
  }

  /** Along a run from the opened app, a session's status never goes back:
      any later state holds it at the same or a later status. */
  lemma StatusMonotoneAlongRun(st: Store, es: seq<Event>, i: nat, j: nat)
    requires StoreInv(st)
    requires i <= j <= |es|
    ensures Inv(Run(Init(st), es[..i]))
    ensures Advances(Run(Init(st), es[..i]).store, Run(Init(st), es[..j]).store)
  {
    InitInv(st);
    var mid := Run(Init(st), es[..i]);
    RunKeepsFlow(Init(st), es[..i]);
    assert es[..j] == es[..i] + es[i..j];
    RunConcat(Init(st), es[..i], es[i..j]);
    RunKeepsFlow(mid, es[i..j]);
  }

  // ---------------------------------------------------------------------
  // Screen flow, ringtone and the deferred navigation

  /** The screens follow Home, incoming call, in call, Home: the only way
      onto the incoming screen is the timer firing, the only ways off it
      are Accept (to the call) and Decline (to Home), and End Call is the
      only way off the call screen. */
  lemma ScreenFlow(s: State, e: Event)
    requires Inv(s)
    ensures var s' := Step(s, e);
            && (s.screen.HomeScreen? && s'.screen.IncomingScreen? ==> e.Wait? && s'.query == s.pending.value.target.query)
            && (s.screen.HomeScreen? ==> s'.screen.HomeScreen? || s'.screen.IncomingScreen?)
            && (s.screen.IncomingScreen? && s'.screen.InCallScreen? ==> e.AcceptCall?)
            && (s.screen.IncomingScreen? && s'.screen.HomeScreen? ==> e.DeclineCall?)
            && (s.screen.InCallScreen? ==> s'.screen.InCallScreen? || (s'.screen.HomeScreen? && e.EndCall?))
  {
  }

  /** However the incoming screen is left, its ringtone is stopped and
      rewound; it is left only by an Accept or Decline whose write went
      through: Accept leaves the session 'active', Decline leaves it
      'ended' with the decline time as `endedTime`. */
  lemma LeavingIncomingStopsRinger(s: State, e: Event)
    requires Inv(s) && s.screen.IncomingScreen?
    requires !Step(s, e).screen.IncomingScreen?
    ensures var s' := Step(s, e);
            && s'.ringer.Some? && !s'.ringer.value.playing && s'.ringer.value.position == 0
            && (e.AcceptCall? ==> s'.screen == InCallScreen(InCall.Entered) && s'.query.sessionId == s.query.sessionId
                                  && s'.store.sessions[s.query.sessionId.value].status == Active)
            && (e.DeclineCall? ==> s'.screen.HomeScreen?
                                   && s'.store.sessions[s.query.sessionId.value].status == Ended
                                   && s'.store.sessions[s.query.sessionId.value].endedTime == Some(e.now))
            && (e.AcceptCall? || e.DeclineCall?) && !e.refused
  {
    var id := s.query.sessionId.value;
    match e
    case AcceptCall(refused) =>
      var r := IncomingCall.Accept(s.query, s.ringer.value, s.store, refused);
      assert r.store.sessions[id].status == Active;
      assert r.next.value.query.sessionId == Some(id);
    case DeclineCall(now, refused) =>
      var r := IncomingCall.Decline(s.query, s.ringer.value, s.store, now, refused);
      assert r.store.sessions[id].endedTime == Some(now);
    case _ =>
  }

  /** A refused Accept or Decline leaves the incoming screen up with the
      store untouched and the ringtone paused where it was; tapping Accept
      again, with the write going through, opens the call. */
  lemma RefusedAnswerStays(s: State, e: Event)
    requires Inv(s) && s.screen.IncomingScreen?
    requires e == AcceptCall(true) || (e.DeclineCall? && e.refused)
    ensures var s' := Step(s, e);
            && s'.screen.IncomingScreen? && s'.store == s.store && s'.query == s.query
            && s'.ringer == Some(IncomingCall.Pause(s.ringer.value))
            && Inv(s')
            && Step(s', AcceptCall(false)).screen.InCallScreen?
            && Step(s', AcceptCall(false)).store.sessions[s.query.sessionId.value].status == Active
  {
    var s' := Step(s, e);
    AcceptStep(s', false);
  }

  /** A refused End Call leaves the call on screen and the store untouched;
      ending again, with the write going through, goes Home with the
      session 'ended' at that time. */
  lemma RefusedEndStays(s: State, now: string)
    requires Inv(s) && s.screen.InCallScreen?
    ensures Step(s, EndCall(now, true)) == s
    ensures Step(s, EndCall(now, false)).screen.HomeScreen?
    ensures Step(s, EndCall(now, false)).store.sessions[s.query.sessionId.value]
              == s.store.sessions[s.query.sessionId.value].(status := Ended, endedTime := Some(now))
  {
  }

  /** `n` firings of the interval advance the call's counter by exactly `n`
      and change nothing else; from the entry state it reads `n`. */
  lemma {:induction false} TicksCount(s: State, n: nat)
    requires s.screen.InCallScreen?
    ensures Run(s, seq(n, _ => Tick)) == s.(screen := InCallScreen(s.screen.call.(seconds := s.screen.call.seconds + n)))
    ensures s.screen.call == InCall.Entered ==> Run(s, seq(n, _ => Tick)).screen == InCallScreen(InCall.TicksFromEntry(n))
    decreases n
  {
    if n > 0 {
      var ticks := seq(n, _ => Tick);
      assert ticks[0] == Tick;
      assert ticks[1..] == seq(n - 1, _ => Tick);
      TicksCount(Step(s, Tick), n - 1);
    }
  }

  /** Start on an enabled button creates exactly one new session, an
      'incoming' one for the shown caller, and arms one timer due after
      the shown delay. */
  lemma StartArmsOneTimer(s: State, id: string, now: string)
    requires Inv(s) && s.screen.HomeScreen? && !s.screen.home.starting
    requires id != "" && id !in s.store.sessions
    ensures var s' := Step(s, StartCall(id, now));
            && s.pending.None?
            && |s'.store.sessions.Keys| == |s.store.sessions.Keys| + 1
            && s'.store.sessions[id].status == Incoming
            && s'.store.sessions[id].caller == s.screen.home.selection.caller
            && s'.pending.Some?
            && s'.pending.value.due == s.clock + Home.TimeoutDelay(s.screen.home.selection.delaySeconds * 1000)
            && s'.screen == HomeScreen(s.screen.home.(starting := true))
  {
    var r := Home.Start(s.screen.home, s.store, s.clock, id, now);
    assert r.store.sessions.Keys == s.store.sessions.Keys + {id};
  }

  /** A pending timer fires when, and only when, the clock reaches its due
      time; firing shows the incoming screen for its session and clears it. */
  lemma TimerFiresWhenDue(s: State, ms: nat)
    requires Inv(s) && s.pending.Some?
    ensures var s' := Step(s, Wait(ms));
            && (s.clock + ms < s.pending.value.due ==> s'.screen == s.screen && s'.pending == s.pending)
            && (s.clock + ms >= s.pending.value.due ==>
                  && s'.screen.IncomingScreen? && s'.pending.None?
                  && s'.query == s.pending.value.target.query
                  && AudioPlaying(s'))
  {
  }

  /** Only Start on an enabled Home button arms a timer: every other step
      keeps the pending timer or clears it, so each Start leads to at most
      one navigation to the incoming screen. */
  lemma OnlyStartArms(s: State, e: Event)
    requires Inv(s)
    requires Step(s, e).pending.Some?
    ensures Step(s, e).pending == s.pending
            || (e.StartCall? && s.pending.None? && s.screen.HomeScreen? && !s.screen.home.starting)
  {
  }
}

=== FILE: home.dfy ===
/** The staging screen (Pages/Home.js): the stored settings and their
    defaults, the upserting save, the three selection handlers, the custom
    ringtone upload, and Start, which creates the session and arms the
    deferred navigation to the incoming-call screen. */
module Home {
  import opened Wrappers
  import opened Records
  import opened Navigation
  import opened Text

  /** The choices the screen offers. */
  const Callers: seq<string> := ["Mom", "Dad", "Yamini"]
  const Delays: seq<int> := [2, 5, 10]
  const Ringtones: seq<string> := ["Classic iPhone", "Urgent", "Vibration Only"]

  const DefaultCaller := "Mom"
  const DefaultDelay := 5
  const DefaultRingtone := "Classic iPhone"

  /** The MIME-type prefix an uploaded ringtone must have. */
  const AudioPrefix := "audio/"

  /** The caller, delay and ringtone the screen shows and saves. */
  datatype Selection = Selection(caller: string, delaySeconds: int, ringtone: string)

  const Defaults := Selection(DefaultCaller, DefaultDelay, DefaultRingtone)

  /** Every field truthy: what a stored record can read back as. */
  predicate Displayable(sel: Selection) {
    sel.caller != "" && sel.delaySeconds != 0 && sel.ringtone != ""
  }

  /** The settings query: the first listed record, or null; under the
      single-record discipline the loaded record is the whole table. */
  function Load(st: Store): (r: Option<SettingsRecord>)
    ensures r.None? <==> |st.settings| == 0
    ensures r.Some? ==> r.value == st.settings[0]
    ensures r.Some? && SingleSettings(st) ==> st.settings == [r.value] && r.value.id != ""
  {
    if |st.settings| == 0 then None else Some(st.settings[0])
  }

  /** What the screen shows for the loaded settings: the initial state when
      nothing is stored (the sync effect does not run), otherwise each stored
      field, with a falsy one replaced by its default. */
  function Effective(loaded: Option<SettingsRecord>): (sel: Selection)
    ensures Displayable(sel)
    ensures loaded.None? ==> sel == Defaults
    ensures loaded.Some? && Truthy(loaded.value.selectedCaller) ==> sel.caller == loaded.value.selectedCaller.value
    ensures loaded.Some? && !Truthy(loaded.value.selectedCaller) ==> sel.caller == DefaultCaller
    ensures loaded.Some? && TruthyNumber(loaded.value.delaySeconds) ==> sel.delaySeconds == loaded.value.delaySeconds.value
    ensures loaded.Some? && !TruthyNumber(loaded.value.delaySeconds) ==> sel.delaySeconds == DefaultDelay
    ensures loaded.Some? && Truthy(loaded.value.ringtone) ==> sel.ringtone == loaded.value.ringtone.value
    ensures loaded.Some? && !Truthy(loaded.value.ringtone) ==> sel.ringtone == DefaultRingtone
  {
    match loaded
    case None => Defaults
    case Some(r) =>
      Selection(
        if Truthy(r.selectedCaller) then r.selectedCaller.value else DefaultCaller,
        if TruthyNumber(r.delaySeconds) then r.delaySeconds.value else DefaultDelay,
        if Truthy(r.ringtone) then r.ringtone.value else DefaultRingtone)
  }

  /** With nothing stored the screen shows Mom, 5 seconds, Classic iPhone;
      a stored 0-second delay also reads as 5. */
  lemma EmptyStoreShowsDefaults(st: Store, r: SettingsRecord)
    ensures |st.settings| == 0 ==> Effective(Load(st)) == Selection("Mom", 5, "Classic iPhone")
    ensures r.delaySeconds == Some(0) ==> Effective(Some(r)).delaySeconds == 5
  {
  }

  /** The loaded record, if any, has an id. */
  predicate LoadedHasId(st: Store) {
    Load(st).None? || Load(st).value.id != ""
  }

  /** The selections plus, optionally, the custom ringtone URL. */
  function PatchOf(sel: Selection, customRingtoneUrl: Option<string>): SettingsPatch {
    SettingsPatch(sel.caller, sel.delaySeconds, sel.ringtone, customRingtoneUrl)
  }

  /** `saveMutation`: update the loaded record when it has an id, otherwise
      create a record under the id the store assigns. */
  function Save(st: Store, loaded: Option<SettingsRecord>, data: SettingsPatch, freshId: string): (r: Result<Store, StoreError>)
    ensures r.Success? ==> r.value.sessions == st.sessions
    ensures SingleSettings(st) && loaded == Load(st) && r.Success? ==> SingleSettings(r.value)
    // update: exactly the records with the loaded id change, the count does not
    ensures loaded.Some? && loaded.value.id != "" ==>
              && (r.Success? <==> HasSettings(st.settings, loaded.value.id))
              && (r.Success? ==> |r.value.settings| == |st.settings|)
              && (r.Success? ==> forall i :: 0 <= i < |st.settings| ==>
                    r.value.settings[i] == if st.settings[i].id == loaded.value.id
                                           then MergeSettings(st.settings[i], data) else st.settings[i])
    // create: one record is appended
    ensures !(loaded.Some? && loaded.value.id != "") ==>
              && (r.Success? <==> freshId != "" && !HasSettings(st.settings, freshId))
              && (r.Success? ==> r.value.settings == st.settings + [NewSettings(freshId, data)])
  {
    if loaded.Some? && loaded.value.id != "" then UpdateSettings(st, loaded.value.id, data)
    else CreateSettings(st, freshId, data)
  }

  /** Saving the loaded record and loading again returns what was saved:
      the three selections, and the custom URL when the patch names one,
      otherwise the one stored before (none for a new record). */
  lemma SaveThenLoad(st: Store, data: SettingsPatch, freshId: string)
    requires LoadedHasId(st)
    requires Load(st).Some? || freshId != ""
    ensures Save(st, Load(st), data, freshId).Success?
    ensures var st' := Save(st, Load(st), data, freshId).value;
            && Load(st').Some?
            && Load(st').value.selectedCaller == Some(data.selectedCaller)
            && Load(st').value.delaySeconds == Some(data.delaySeconds)
            && Load(st').value.ringtone == Some(data.ringtone)
            && Load(st').value.customRingtoneUrl ==
                 if data.customRingtoneUrl.Some? then data.customRingtoneUrl
                 else if Load(st).Some? then Load(st).value.customRingtoneUrl else None
  {
    if Load(st).Some? {
      assert HasSettings(st.settings, st.settings[0].id);
    } else {
      assert !HasSettings(st.settings, freshId);
    }
  }

  /** A saved selection survives the reload that follows the save. */
  lemma SavedSelectionReloads(st: Store, sel: Selection, custom: Option<string>, freshId: string)
    requires LoadedHasId(st)
    requires Load(st).Some? || freshId != ""
    requires Displayable(sel)
    ensures Effective(Load(Save(st, Load(st), PatchOf(sel, custom), freshId).value)) == sel
  {
    SaveThenLoad(st, PatchOf(sel, custom), freshId);
  }

  /** The screen's own state: the shown selection and whether Start was pressed. */
  datatype HomeView = HomeView(selection: Selection, starting: bool)

  /** Entering the screen: the initial state, synced with the cached settings. */
  function Mount(st: Store): (v: HomeView)
    ensures !v.starting && Displayable(v.selection)
    ensures |st.settings| == 0 ==> v.selection == Defaults
    ensures |st.settings| > 0 ==> v.selection == Effective(Some(st.settings[0]))
  {
    HomeView(Effective(Load(st)), false)
  }

  datatype HomeResult = HomeResult(view: HomeView, store: Store)

  /** The end of a save: on success the settings query is invalidated and
      refetched and the sync effect shows the reloaded record; a failed save
      changes nothing further. */
  function Settle(view: HomeView, st: Store, saved: Result<Store, StoreError>): HomeResult {
    match saved
    case Failure(_) => HomeResult(view, st)
    case Success(st') => HomeResult(view.(selection := Effective(Load(st'))), st')
  }

  /** A select handler: the screen takes the new selection at once, then the
      full triple is saved (the custom URL is not part of the patch). */
  function Select(view: HomeView, st: Store, sel: Selection, freshId: string): (r: HomeResult)
    ensures SingleSettings(st) ==> SingleSettings(r.store)
    ensures r.store.sessions == st.sessions
    ensures r.view.starting == view.starting
    ensures Displayable(sel) ==> r.view.selection == sel || !LoadedHasId(st)
    ensures LoadedHasId(st) && (Load(st).Some? || freshId != "") ==>
              && Load(r.store).Some?
              && Load(r.store).value.selectedCaller == Some(sel.caller)
              && Load(r.store).value.delaySeconds == Some(sel.delaySeconds)
              && Load(r.store).value.ringtone == Some(sel.ringtone)
              && Load(r.store).value.customRingtoneUrl ==
                   if Load(st).Some? then Load(st).value.customRingtoneUrl else None
  {
    var saved := Save(st, Load(st), PatchOf(sel, None), freshId);
    if LoadedHasId(st) && (Load(st).Some? || freshId != "") then
      SaveThenLoad(st, PatchOf(sel, None), freshId);
      Settle(view.(selection := sel), st, saved)
    else
      Settle(view.(selection := sel), st, saved)
  }

  /** `handleCallerSelect`: saves the new caller with the current delay and ringtone. */
  function SelectCaller(view: HomeView, st: Store, caller: string, freshId: string): (r: HomeResult)
    ensures SingleSettings(st) ==> SingleSettings(r.store)
    ensures r.store.sessions == st.sessions && r.view.starting == view.starting
    ensures caller != "" && Displayable(view.selection) && LoadedHasId(st) ==>
              r.view.selection == Selection(caller, view.selection.delaySeconds, view.selection.ringtone)
    ensures LoadedHasId(st) && (Load(st).Some? || freshId != "") ==>
              && Load(r.store).Some?
              && Load(r.store).value.selectedCaller == Some(caller)
              && Load(r.store).value.delaySeconds == Some(view.selection.delaySeconds)
              && Load(r.store).value.ringtone == Some(view.selection.ringtone)
              && Load(r.store).value.customRingtoneUrl ==
                   if Load(st).Some? then Load(st).value.customRingtoneUrl else None
  {
    Select(view, st, view.selection.(caller := caller), freshId)
  }

  /** `handleDelaySelect`: saves the new delay with the current caller and ringtone. */
  function SelectDelay(view: HomeView, st: Store, delay: int, freshId: string): (r: HomeResult)
    ensures SingleSettings(st) ==> SingleSettings(r.store)
    ensures r.store.sessions == st.sessions && r.view.starting == view.starting
    ensures delay != 0 && Displayable(view.selection) && LoadedHasId(st) ==>
              r.view.selection == Selection(view.selection.caller, delay, view.selection.ringtone)
    ensures LoadedHasId(st) && (Load(st).Some? || freshId != "") ==>
              && Load(r.store).Some?
              && Load(r.store).value.selectedCaller == Some(view.selection.caller)
              && Load(r.store).value.delaySeconds == Some(delay)
              && Load(r.store).value.ringtone == Some(view.selection.ringtone)
              && Load(r.store).value.customRingtoneUrl ==
                   if Load(st).Some? then Load(st).value.customRingtoneUrl else None
  {
    Select(view, st, view.selection.(delaySeconds := delay), freshId)
  }

  /** `handleRingtoneSelect`: saves the new ringtone with the current caller and delay. */
  function SelectRingtone(view: HomeView, st: Store, tone: string, freshId: string): (r: HomeResult)
    ensures SingleSettings(st) ==> SingleSettings(r.store)
    ensures r.store.sessions == st.sessions && r.view.starting == view.starting
    ensures tone != "" && Displayable(view.selection) && LoadedHasId(st) ==>
              r.view.selection == Selection(view.selection.caller, view.selection.delaySeconds, tone)
    ensures LoadedHasId(st) && (Load(st).Some? || freshId != "") ==>
              && Load(r.store).Some?
              && Load(r.store).value.selectedCaller == Some(view.selection.caller)
              && Load(r.store).value.delaySeconds == Some(view.selection.delaySeconds)
              && Load(r.store).value.ringtone == Some(tone)
              && Load(r.store).value.customRingtoneUrl ==
                   if Load(st).Some? then Load(st).value.customRingtoneUrl else None
  {
    Select(view, st, view.selection.(ringtone := tone), freshId)
  }

  /** The file an upload event carries, reduced to its MIME type. */
  datatype File = File(mimeType: string)

  /** `handleFileUpload`: no file, or a type outside `audio/`, saves nothing;
      `uploaded` is the URL the upload service returns, `None` when it
      throws, and then nothing is saved either; otherwise the current
      selections are saved together with the URL. */
  function Upload(view: HomeView, st: Store, file: Option<File>, uploaded: Option<string>, freshId: string): (r: HomeResult)
    ensures SingleSettings(st) ==> SingleSettings(r.store)
    ensures r.store.sessions == st.sessions && r.view.starting == view.starting
    ensures file.None? || !StartsWith(file.value.mimeType, AudioPrefix) || uploaded.None? ==> r == HomeResult(view, st)
    ensures Displayable(view.selection) && LoadedHasId(st) ==> r.view.selection == view.selection
    ensures file.Some? && StartsWith(file.value.mimeType, AudioPrefix) && uploaded.Some?
            && LoadedHasId(st) && (Load(st).Some? || freshId != "") ==>
              && Load(r.store).Some?
              && Load(r.store).value.customRingtoneUrl == uploaded
              && Load(r.store).value.selectedCaller == Some(view.selection.caller)
              && Load(r.store).value.delaySeconds == Some(view.selection.delaySeconds)
              && Load(r.store).value.ringtone == Some(view.selection.ringtone)
  {
    if file.None? then HomeResult(view, st)
    else if !StartsWith(file.value.mimeType, AudioPrefix) then HomeResult(view, st)
    else if uploaded.None? then HomeResult(view, st)
    else
      var data := PatchOf(view.selection, uploaded);
      var saved := Save(st, Load(st), data, freshId);
      if LoadedHasId(st) && (Load(st).Some? || freshId != "") then
        SaveThenLoad(st, data, freshId);
        Settle(view, st, saved)
      else
        Settle(view, st, saved)
  }

  /** A pending `setTimeout`: the clock reading (ms) it is due at, and the
      location its callback navigates to. */
  datatype Timer = Timer(due: int, target: Location)

  const Int32Span := 0x1_0000_0000
  const Int32Limit := 0x8000_0000

  /** The time `setTimeout` waits for a requested delay of `ms`: the delay
      is converted to a 32-bit signed integer (the Web IDL `long` type,
      wrapping modulo 2^32) and a negative result is treated as 0, per the
      timer initialisation steps of the HTML standard. */
  function TimeoutDelay(ms: int): (d: nat)
    ensures d < Int32Limit
    ensures 0 <= ms < Int32Limit ==> d == ms
    ensures ms < 0 && -Int32Limit <= ms ==> d == 0
    ensures d == 0 || (ms - d) % Int32Span == 0
    ensures d == 0 ==> ms % Int32Span == 0 || ms % Int32Span >= Int32Limit
  {
    var w := ms % Int32Span;
    var s := if w >= Int32Limit then w - Int32Span else w;
    if s < 0 then 0 else s
  }

  /** A delay beyond 2^31 - 1 ms wraps round: 2^32 + 1000 ms fires after 1 s. */
  lemma TimeoutDelayWraps()
    ensures TimeoutDelay(Int32Span + 1000) == 1000
    ensures TimeoutDelay(Int32Limit) == 0
  {
  }

  /** Where the deferred navigation goes: the incoming-call screen with the
      session id and caller, and the custom ringtone URL only when one is stored. */
  function IncomingTarget(id: string, caller: string, loaded: Option<SettingsRecord>): (loc: Location)
    ensures loc.page == IncomingCallPage
    ensures loc.query.sessionId == Some(id) && loc.query.caller == Some(caller)
    ensures caller != "" ==> CallerParam(loc.query) == caller
    ensures loc.query.ringtoneUrl.Some? <==> loaded.Some? && Truthy(loaded.value.customRingtoneUrl)
    ensures loc.query.ringtoneUrl.Some? ==> loc.query.ringtoneUrl == loaded.value.customRingtoneUrl
  {
    var ringtoneUrl := if loaded.Some? && Truthy(loaded.value.customRingtoneUrl) then loaded.value.customRingtoneUrl else None;
    Location(IncomingCallPage, Query(Some(id), Some(caller), ringtoneUrl))
  }

  datatype StartResult = StartResult(view: HomeView, store: Store, timer: Option<Timer>)

  /** `handleStartCall`, reached only while the button is enabled: marks the
      screen as starting, creates an 'incoming' session for the shown caller
      under the id the store assigns (`freshId`), and only once the create
      has succeeded arms one timer for `delaySeconds * 1000` ms after `clock`.
      A rejected create leaves the button disabled and arms nothing. */
  function Start(view: HomeView, st: Store, clock: int, freshId: string, now: string): (r: StartResult)
    ensures view.starting ==> r == StartResult(view, st, None)
    ensures !view.starting ==> r.view == view.(starting := true) && r.store.settings == st.settings
    ensures !view.starting && (freshId == "" || freshId in st.sessions) ==> r.store == st && r.timer.None?
    ensures !view.starting && freshId != "" && freshId !in st.sessions ==>
              && freshId !in st.sessions.Keys
              && r.store.sessions.Keys == st.sessions.Keys + {freshId}
              && r.store.sessions[freshId] == Session(now, view.selection.caller, Incoming, None)
              && (forall k :: k in st.sessions ==> r.store.sessions[k] == st.sessions[k])
              && r.timer.Some?
              && r.timer.value.due == clock + TimeoutDelay(view.selection.delaySeconds * 1000)
              && r.timer.value.target.page == IncomingCallPage
              && r.timer.value.target.query.sessionId == Some(freshId)
              && r.timer.value.target.query.caller == Some(view.selection.caller)
              && (r.timer.value.target.query.ringtoneUrl.Some? <==>
                    Load(st).Some? && Truthy(Load(st).value.customRingtoneUrl))
              && (r.timer.value.target.query.ringtoneUrl.Some? ==>
                    r.timer.value.target.query.ringtoneUrl == Load(st).value.customRingtoneUrl)
  {
    if view.starting then StartResult(view, st, None)
    else
      var v := view.(starting := true);
      match CreateSession(st, freshId, Session(now, view.selection.caller, Incoming, None))
      case Failure(_) => StartResult(v, st, None)
      case Success(st') =>
        var due := clock + TimeoutDelay(view.selection.delaySeconds * 1000);
        StartResult(v, st', Some(Timer(due, IncomingTarget(freshId, view.selection.caller, Load(st)))))
  }
}

=== FILE: in_call.dfy ===
/** The in-call screen (Pages/InCall.js): the elapsed-time display, the mute
    and speaker controls, and End Call. */
module InCall {
  import opened Wrappers
  import opened Records
  import opened Navigation
  import opened Text

  /** The screen's local state: seconds since entry and the two toggles. */
  datatype CallView = CallView(seconds: nat, muted: bool, speaker: bool)

  /** The state every entry to the screen starts from. */
  const Entered := CallView(0, false, false)

  /** One firing of the one-second interval. */
  function Tick(v: CallView): (w: CallView)
    ensures w.seconds == v.seconds + 1
    ensures w.muted == v.muted && w.speaker == v.speaker
  {
    v.(seconds := v.seconds + 1)
  }

  /** After `n` interval firings since entry the counter reads exactly `n`. */
  function TicksFromEntry(n: nat): (v: CallView)
    ensures v.seconds == n && !v.muted && !v.speaker
    decreases n
  {
    if n == 0 then Entered else Tick(TicksFromEntry(n - 1))
  }

  function ToggleMute(v: CallView): (w: CallView)
    ensures w.muted == !v.muted
    ensures w.speaker == v.speaker && w.seconds == v.seconds
  {
    v.(muted := !v.muted)
  }

  function ToggleSpeaker(v: CallView): (w: CallView)
    ensures w.speaker == !v.speaker
    ensures w.muted == v.muted && w.seconds == v.seconds
  {
    v.(speaker := !v.speaker)
  }

  /** Each toggle is its own inverse. */
  lemma TogglesAreInvolutions(v: CallView)
    ensures ToggleMute(ToggleMute(v)) == v
    ensures ToggleSpeaker(ToggleSpeaker(v)) == v
    ensures ToggleMute(ToggleSpeaker(v)) == ToggleSpeaker(ToggleMute(v))
  {
  }

  /** `Math.floor(t / 60)` and `t % 60` for the non-negative counter. */
  function Fields(totalSeconds: nat): (f: (nat, nat))
    ensures f.1 < 60
    ensures f.0 * 60 + f.1 == totalSeconds
  {
    (totalSeconds / 60, totalSeconds % 60)
  }

  /** One field of the display, two digits at least, reading as `n`;
      `Field2IsPadStart` shows it is `n.toString().padStart(2, '0')`. */
  function Field2(n: nat): (f: string)
    ensures |f| >= 2 && AllDigits(f)
    ensures n < 100 ==> |f| == 2
    ensures ValueOf(f) == n
  {
    var d := Decimal(n);
    ValueOfDecimal(n);
    if n < 10 then
      LeadingZero(d);
      "0" + d
    else
      d
  }

  /** The field is the decimal text of `n` left-padded with '0' to two
      characters. */
  lemma Field2IsPadStart(n: nat)
    ensures Field2(n) == PadStart(Decimal(n), 2, '0')
  {
    var d := Decimal(n);
    if n < 10 {
      var p := PadStart(d, 2, '0');
      assert p[1..] == d;
    }
  }

  /** `formatTime`: minutes and seconds, each left-padded with '0' to two
      characters, joined by ':'. */
  function FormatTime(totalSeconds: nat): (r: string)
    ensures |r| >= 5 && r[|r| - 3] == ':'
    ensures totalSeconds < 6000 ==> |r| == 5
  {
    var f := Fields(totalSeconds);
    Field2(f.0) + ":" + Field2(f.1)
  }

  /** The text before the ':' of a display, and the two digits after it. */
  function MinutesText(r: string): string
    requires |r| >= 3
  {
    r[..|r| - 3]
  }

  function SecondsText(r: string): string
    requires |r| >= 2
  {
    r[|r| - 2..]
  }

  /** Reads a clock display back: digits, ':', then two digits below 60. */
  function ParseTime(s: string): (r: Option<nat>)
    ensures r.Some? ==> |s| >= 4 && s[|s| - 3] == ':'
  {
    if |s| < 4 || s[|s| - 3] != ':' then None
    else ParseFields(MinutesText(s), SecondsText(s))
  }

  /** The minutes and seconds fields of a display, read as one count. */
  function ParseFields(m: string, sec: string): Option<nat> {
    if AllDigits(m) && AllDigits(sec) && ValueOf(sec) < 60 then Some(ValueOf(m) * 60 + ValueOf(sec))
    else None
  }

  /** The display is the minutes field, ':', and two seconds digits; the
      minutes field is at least two digits wide and reads as `t div 60`,
      the seconds field reads as `t mod 60`. */
  lemma FormatTimeFields(t: nat)
    ensures var r := FormatTime(t);
            && |r| >= 5 && r[|r| - 3] == ':'
            && |MinutesText(r)| >= 2 && AllDigits(MinutesText(r)) && AllDigits(SecondsText(r))
            && ValueOf(MinutesText(r)) == t / 60 && ValueOf(SecondsText(r)) == t % 60
  {
    var f := Fields(t);
    JoinedFields(Field2(f.0), Field2(f.1));
  }

  /** The fields of a joined display come back out of it. */
  lemma JoinedFields(m: string, s: string)
    requires |s| == 2
    ensures var r := m + ":" + s;
            && |r| >= 3 && r[|r| - 3] == ':' && MinutesText(r) == m && SecondsText(r) == s
  {
    var r := m + ":" + s;
    assert r[..|r| - 3] == m;
    assert r[|r| - 2..] == s;
  }

  /** Reading the display back yields the counter it was made from. */
  lemma FormatParseRoundTrip(t: nat)
    ensures ParseTime(FormatTime(t)) == Some(t)
  {
    var f := Fields(t);
    var m, s := Field2(f.0), Field2(f.1);
    assert FormatTime(t) == m + ":" + s;
    ParseJoin(m, s);
    assert ValueOf(m) * 60 + ValueOf(s) == t;
  }

  /** Any digit string, ':', and two digits below 60 parse to their count. */
  lemma ParseJoin(m: string, s: string)
    requires 1 <= |m| && AllDigits(m)
    requires |s| == 2 && AllDigits(s) && ValueOf(s) < 60
    ensures ParseTime(m + ":" + s) == Some(ValueOf(m) * 60 + ValueOf(s))
  {
    var r := m + ":" + s;
    JoinedFields(m, s);
    FieldsParse(m, s);
    assert |r| >= 4 && r[|r| - 3] == ':';
    assert ParseTime(r) == ParseFields(MinutesText(r), SecondsText(r));
  }

  /** Digit fields with seconds below 60 read as minutes * 60 + seconds. */
  lemma FieldsParse(m: string, s: string)
    requires AllDigits(m) && AllDigits(s) && ValueOf(s) < 60
    ensures ParseFields(m, s) == Some(ValueOf(m) * 60 + ValueOf(s))
  {
  }

  /** Distinct counter values never share a display. */
  lemma FormatTimeInjective(a: nat, b: nat)
    requires FormatTime(a) == FormatTime(b)
    ensures a == b
  {
    FormatParseRoundTrip(a);
    FormatParseRoundTrip(b);
  }

  /** Below 100 minutes the display is exactly "MM:SS". */
  lemma FormatTimeShortForm(t: nat)
    requires t < 6000
    ensures |FormatTime(t)| == 5 && FormatTime(t)[2] == ':'
  {
    assert t / 60 < 100;
  }

  datatype EndResult = EndResult(store: Store, next: Option<Location>)

  /** `handleEndCall`: with a (truthy) session id, one update writes 'ended'
      and `endedTime` together and is awaited; a rejected write (unknown id,
      or a request `refused` on the way) leaves the screen where it is.
      Without an id nothing is written. Then Home. */
  function EndCall(q: Query, st: Store, now: string, refused: bool): (r: EndResult)
    ensures !Truthy(q.sessionId) ==> r == EndResult(st, Some(Location(HomePage, NoQuery)))
    ensures Truthy(q.sessionId) && (refused || q.sessionId.value !in st.sessions) ==> r == EndResult(st, None)
    ensures Truthy(q.sessionId) && !refused && q.sessionId.value in st.sessions ==>
              && r.next == Some(Location(HomePage, NoQuery))
              && r.store.settings == st.settings
              && r.store.sessions == st.sessions[q.sessionId.value :=
                   st.sessions[q.sessionId.value].(status := Ended, endedTime := Some(now))]
  {
    if Truthy(q.sessionId) then
      match SendSessionUpdate(st, q.sessionId.value, SessionPatch(Ended, Some(now)), refused)
      case Failure(_) => EndResult(st, None)
      case Success(st') => EndResult(st', Some(Location(HomePage, NoQuery)))
    else EndResult(st, Some(Location(HomePage, NoQuery)))
  }
}

=== FILE: incoming_call.dfy ===
/** The incoming-call screen (Pages/IncomingCall.js): the looping ringtone
    and the Accept and Decline handlers. */
module IncomingCall {
  import opened Wrappers
  import opened Records
  import opened Navigation

  const DefaultRingtoneUrl := "https://www.soundjay.com/phone/sounds/telephone-ring-01a.mp3"
  const RingVolume: real := 0.5

  /** The screen's audio element: its source, loop flag and volume, whether
      it is playing, and its playback position in ms. */
  datatype Audio = Audio(src: string, loop: bool, volume: real, playing: bool, position: nat)

  /** The element made on entry and started by the mount effect: the
      `ringtoneUrl` parameter when present, else the bundled ring, looping
      at half volume from the start. */
  function Ring(q: Query): (a: Audio)
    ensures a.playing && a.loop && a.volume == RingVolume && a.position == 0
    ensures Truthy(q.ringtoneUrl) ==> a.src == q.ringtoneUrl.value
    ensures !Truthy(q.ringtoneUrl) ==> a.src == DefaultRingtoneUrl
  {
    var src := if Truthy(q.ringtoneUrl) then q.ringtoneUrl.value else DefaultRingtoneUrl;
    Audio(src, true, RingVolume, true, 0)
  }

  /** `ms` of playback: the position moves only while playing. */
  function Play(a: Audio, ms: nat): (b: Audio)
    ensures b.playing == a.playing && b.src == a.src
    ensures b.position == if a.playing then a.position + ms else a.position
  {
    if a.playing then a.(position := a.position + ms) else a
  }

  function Pause(a: Audio): Audio {
    a.(playing := false)
  }

  /** The mount effect's cleanup, run whenever the screen is left. */
  function Cleanup(a: Audio): (b: Audio)
    ensures !b.playing && b.position == 0
    ensures b.src == a.src && b.loop == a.loop && b.volume == a.volume
  {
    Pause(a).(position := 0)
  }

  datatype Response = Response(audio: Audio, store: Store, next: Option<Location>)

  /** `handleAccept`: pauses the ringtone; with a (truthy) session id writes
      'active' and waits for the write, a rejected write (unknown id, or a
      request `refused` on the way) ending the handler before it navigates;
      then goes to the in-call screen with the same session id (null printed
      as "null") and caller. */
  function Accept(q: Query, a: Audio, st: Store, refused: bool): (r: Response)
    ensures r.audio == Pause(a) && !r.audio.playing && r.audio.position == a.position
    ensures !Truthy(q.sessionId) ==> r.store == st
    ensures Truthy(q.sessionId) && (refused || q.sessionId.value !in st.sessions) ==> r.store == st && r.next.None?
    ensures Truthy(q.sessionId) && !refused && q.sessionId.value in st.sessions ==>
              && r.store.settings == st.settings
              && r.store.sessions == st.sessions[q.sessionId.value := st.sessions[q.sessionId.value].(status := Active)]
    ensures r.next.Some? ==>
              r.next.value == Location(InCallPage, Query(Some(ParamText(q.sessionId)), Some(CallerParam(q)), None))
    ensures (!Truthy(q.sessionId) || (!refused && q.sessionId.value in st.sessions)) ==> r.next.Some?
  {
    var paused := Pause(a);
    var next := Location(InCallPage, Query(Some(ParamText(q.sessionId)), Some(CallerParam(q)), None));
    if Truthy(q.sessionId) then
      match SendSessionUpdate(st, q.sessionId.value, SessionPatch(Active, None), refused)
      case Failure(_) => Response(paused, st, None)
      case Success(st') => Response(paused, st', Some(next))
    else Response(paused, st, Some(next))
  }

  /** `handleDecline`: pauses the ringtone; with a (truthy) session id writes
      'ended' and `endedTime` in one awaited update, a rejected write ending
      the handler; then goes to Home. */
  function Decline(q: Query, a: Audio, st: Store, now: string, refused: bool): (r: Response)
    ensures r.audio == Pause(a) && !r.audio.playing && r.audio.position == a.position
    ensures !Truthy(q.sessionId) ==> r == Response(Pause(a), st, Some(Location(HomePage, NoQuery)))
    ensures Truthy(q.sessionId) && (refused || q.sessionId.value !in st.sessions) ==> r.store == st && r.next.None?
    ensures Truthy(q.sessionId) && !refused && q.sessionId.value in st.sessions ==>
              && r.next == Some(Location(HomePage, NoQuery))
              && r.store.settings == st.settings
              && r.store.sessions == st.sessions[q.sessionId.value :=
                   st.sessions[q.sessionId.value].(status := Ended, endedTime := Some(now))]
  {
    var paused := Pause(a);
    if Truthy(q.sessionId) then
      match SendSessionUpdate(st, q.sessionId.value, SessionPatch(Ended, Some(now)), refused)
      case Failure(_) => Response(paused, st, None)
      case Success(st') => Response(paused, st', Some(Location(HomePage, NoQuery)))
    else Response(paused, st, Some(Location(HomePage, NoQuery)))
  }

  /** Accept does not look at the stored status: on a session that has
      already ended it still writes 'active'. */
  lemma AcceptHasNoStatusGuard(a: Audio)
    ensures var st := Store([], map["s1" := Session("t0", "Mom", Ended, Some("t1"))]);
            var r := Accept(Query(Some("s1"), Some("Mom"), None), a, st, false);
            r.store.sessions["s1"].status == Active && r.next.Some?
  {
  }

  /** Without a session id, Accept writes nothing and forwards the text
      "null" as the in-call screen's session id. */
  lemma AcceptWithoutSessionForwardsNull(a: Audio, st: Store, caller: Option<string>, refused: bool)
    ensures Accept(Query(None, caller, None), a, st, refused).store == st
    ensures Accept(Query(None, caller, None), a, st, refused).next.value.query.sessionId == Some("null")
  {
  }
}

=== FILE: navigation.dfy ===
/** Page URLs as the screens build and read them. Percent-encoding and
    query-string parsing are treated as an exact encode/decode pair, so a
    query is held already decoded. */
module Navigation {
  import opened Wrappers
  import opened Records

  datatype Page = HomePage | IncomingCallPage | InCallPage

  /** `URLSearchParams.get` of each parameter the screens read: `None` when
      the parameter is absent. */
  datatype Query = Query(sessionId: Option<string>, caller: Option<string>, ringtoneUrl: Option<string>)

  const NoQuery := Query(None, None, None)

  datatype Location = Location(page: Page, query: Query)

  const UnknownCaller := "Unknown"

  /** `urlParams.get('caller') || 'Unknown'`, as both call screens read it. */
  function CallerParam(q: Query): (c: string)
    ensures c != ""
    ensures Truthy(q.caller) ==> c == q.caller.value
    ensures !Truthy(q.caller) ==> c == UnknownCaller
  {
    if Truthy(q.caller) then q.caller.value else UnknownCaller
  }

  /** A template literal `${x}` of a string-or-null: null prints as "null". */
  function ParamText(o: Option<string>): string {
    match o
    case Some(v) => v
    case None => "null"
  }
}

=== FILE: records.dfy ===
/** The persistent record store the screens talk to: a list of Settings
    records and the Session records keyed by id. The store itself is an
    external service; this module states only the list/create/update
    contract the screens rely on. */
module Records {
  import opened Wrappers

  /** JavaScript truthiness of an optional text field: null, undefined and
      the empty string are falsy. */
  predicate Truthy(o: Option<string>) {
    o.Some? && o.value != ""
  }

  /** JavaScript truthiness of an optional number field: null, undefined and
      0 are falsy. */
  predicate TruthyNumber(o: Option<int>) {
    o.Some? && o.value != 0
  }

  datatype Status = Incoming | Active | Ended

  /** Position of a status along the call's life: incoming, active, ended. */
  function Rank(s: Status): nat {
    match s
    case Incoming => 0
    case Active => 1
    case Ended => 2
  }

  /** A Session record; its id is the key under which the store holds it. */
  datatype Session = Session(startTime: string, caller: string, status: Status, endedTime: Option<string>)

  /** The fields of a Session update; `endedTime == None` means the patch
      does not mention the field, so the stored value is kept. */
  datatype SessionPatch = SessionPatch(status: Status, endedTime: Option<string>)

  /** A Settings record as read back from the store; a field the record
      never received reads as `None`. */
  datatype SettingsRecord = SettingsRecord(
    id: string,
    selectedCaller: Option<string>,
    delaySeconds: Option<int>,
    ringtone: Option<string>,
    customRingtoneUrl: Option<string>)

  /** The data a save sends: always the three selections, and the custom
      ringtone URL only when the patch mentions it. */
  datatype SettingsPatch = SettingsPatch(
    selectedCaller: string,
    delaySeconds: int,
    ringtone: string,
    customRingtoneUrl: Option<string>)

  /** Why a store call's promise rejects: an unknown id, an id the store
      cannot assign, or a request the server or the connection refused. */
  datatype StoreError = NoSuchRecord(id: string) | IdUnavailable(id: string) | Refused

  datatype Store = Store(settings: seq<SettingsRecord>, sessions: map<string, Session>)

  /** At most one Settings record, and it carries an id. */
  predicate SingleSettings(st: Store) {
    |st.settings| <= 1 && forall i :: 0 <= i < |st.settings| ==> st.settings[i].id != ""
  }

  predicate HasSettings(rs: seq<SettingsRecord>, id: string) {
    exists i :: 0 <= i < |rs| && rs[i].id == id
  }

  /** The record an update leaves behind: patched fields replaced, the rest kept. */
  function MergeSettings(r: SettingsRecord, p: SettingsPatch): SettingsRecord {
    SettingsRecord(
      r.id,
      Some(p.selectedCaller),
      Some(p.delaySeconds),
      Some(p.ringtone),
      if p.customRingtoneUrl.Some? then p.customRingtoneUrl else r.customRingtoneUrl)
  }

  /** The record a create stores under `id`. */
  function NewSettings(id: string, p: SettingsPatch): SettingsRecord {
    SettingsRecord(id, Some(p.selectedCaller), Some(p.delaySeconds), Some(p.ringtone), p.customRingtoneUrl)
  }

  /** One record after an update of `id`: merged when it carries `id`. */
  function PatchIfId(r: SettingsRecord, id: string, p: SettingsPatch): (q: SettingsRecord)
    ensures q.id == r.id
    ensures r.id == id ==> q == MergeSettings(r, p)
    ensures r.id != id ==> q == r
  {
    if r.id == id then MergeSettings(r, p) else r
  }

  /** Patches every record carrying `id`, position by position. */
  function ReplaceById(rs: seq<SettingsRecord>, id: string, p: SettingsPatch): (out: seq<SettingsRecord>)
    ensures |out| == |rs|
    ensures forall i :: 0 <= i < |rs| ==> out[i] == PatchIfId(rs[i], id, p)
    decreases |rs|
  {
    if |rs| == 0 then []
    else
      var tail := ReplaceById(rs[1..], id, p);
      var out := [PatchIfId(rs[0], id, p)] + tail;
      assert forall i :: 1 <= i < |rs| ==> out[i] == tail[i - 1] && rs[i] == rs[1..][i - 1];
      out
  }

  /** `Settings.update(id, data)`: rejected when no record has that id. */
  function UpdateSettings(st: Store, id: string, p: SettingsPatch): (r: Result<Store, StoreError>)
    ensures r.Success? <==> HasSettings(st.settings, id)
    ensures r.Success? ==> r.value.sessions == st.sessions
    ensures r.Success? ==> r.value.settings == ReplaceById(st.settings, id, p)
  {
    if HasSettings(st.settings, id) then Success(st.(settings := ReplaceById(st.settings, id, p)))
    else Failure(NoSuchRecord(id))
  }

  /** `Settings.create(data)`: the store assigns `id`; an empty or already
      used id stands for a create the store rejects. */
  function CreateSettings(st: Store, id: string, p: SettingsPatch): (r: Result<Store, StoreError>)
    ensures r.Success? <==> id != "" && !HasSettings(st.settings, id)
    ensures r.Success? ==> r.value.sessions == st.sessions
    ensures r.Success? ==> r.value.settings == st.settings + [NewSettings(id, p)]
  {
    if id != "" && !HasSettings(st.settings, id) then Success(st.(settings := st.settings + [NewSettings(id, p)]))
    else Failure(IdUnavailable(id))
  }

  /** `Session.create(data)` under the id the store assigns. */
  function CreateSession(st: Store, id: string, s: Session): (r: Result<Store, StoreError>)
    ensures r.Success? <==> id != "" && id !in st.sessions
    ensures r.Success? ==> r.value.settings == st.settings
    ensures r.Success? ==> r.value.sessions.Keys == st.sessions.Keys + {id}
    ensures r.Success? ==> r.value.sessions[id] == s
    ensures r.Success? ==> forall k :: k in st.sessions ==> r.value.sessions[k] == st.sessions[k]
  {
    if id != "" && id !in st.sessions then Success(st.(sessions := st.sessions[id := s]))
    else Failure(IdUnavailable(id))
  }

  /** The record a Session update leaves behind. */
  function MergeSession(s: Session, p: SessionPatch): Session {
    s.(status := p.status, endedTime := if p.endedTime.Some? then p.endedTime else s.endedTime)
  }

  /** `Session.update(id, patch)`: rejected when no session has that id. */
  function UpdateSession(st: Store, id: string, p: SessionPatch): (r: Result<Store, StoreError>)
    ensures r.Success? <==> id in st.sessions
    ensures r.Success? ==> r.value.settings == st.settings
    ensures r.Success? ==> r.value.sessions.Keys == st.sessions.Keys
    ensures r.Success? ==> r.value.sessions[id] == MergeSession(st.sessions[id], p)
    ensures r.Success? ==> forall k :: k in st.sessions && k != id ==> r.value.sessions[k] == st.sessions[k]
  {
    if id in st.sessions then Success(st.(sessions := st.sessions[id := MergeSession(st.sessions[id], p)]))
    else Failure(NoSuchRecord(id))
  }

  /** `Session.update(id, patch)` as the network delivers it: a refused
      request rejects whatever the store holds; otherwise the store answers. */
  function SendSessionUpdate(st: Store, id: string, p: SessionPatch, refused: bool): (r: Result<Store, StoreError>)
    ensures r.Success? <==> !refused && id in st.sessions
    ensures r.Success? ==> r == UpdateSession(st, id, p)
  {
    if refused then Failure(Refused) else UpdateSession(st, id, p)
  }
}

=== FILE: scenario.dfy ===
/** One accepted call traced state by state on an empty store: Start,
    five seconds, Accept, one second on the call, End Call. */
module Scenario {
  import opened Wrappers
  import opened Records
  import opened Navigation
  import opened CallFlow
  import Home
  import IncomingCall
  import InCall

  const Target := Query(Some("s1"), Some("Mom"), None)

  const Armed := State(
    Store([], map["s1" := Session("t0", "Mom", Incoming, None)]),
    HomeScreen(Home.HomeView(Home.Defaults, true)), NoQuery, None,
    Some(Home.Timer(5000, Location(IncomingCallPage, Target))), 0)

  const Ringing := State(Armed.store, IncomingScreen, Target, Some(IncomingCall.Ring(Target)), None, 5000)

  const Talking := State(
    Store([], map["s1" := Session("t0", "Mom", Active, None)]),
    InCallScreen(InCall.Entered), Query(Some("s1"), Some("Mom"), None),
    Some(IncomingCall.Cleanup(IncomingCall.Ring(Target))), None, 5000)

  const Back := State(
    Store([], map["s1" := Session("t0", "Mom", Ended, Some("t1"))]),
    HomeScreen(Home.HomeView(Home.Defaults, false)), NoQuery,
    Some(IncomingCall.Cleanup(IncomingCall.Ring(Target))), None, 5000)

  lemma StartStepTaken()
    ensures Step(Init(Store([], map[])), StartCall("s1", "t0")) == Armed
  {
  }

  lemma TimerStepTaken()
    ensures Step(Armed, Wait(5000)) == Ringing
  {
  }

  lemma AcceptStepTaken()
    ensures Step(Ringing, AcceptCall(false)) == Talking
  {
  }

  lemma EndStepTaken()
    ensures Step(Step(Talking, Tick), EndCall("t1", false)) == Back
  {
  }

  /** The session was created 'incoming' for Mom, accepted, and ended at
      the End Call time; the app is back on Home showing the defaults, with
      no audio playing and no timer pending. */
  lemma AcceptedCallEnds()
    ensures Run(Init(Store([], map[])), [StartCall("s1", "t0"), Wait(5000), AcceptCall(false), Tick, EndCall("t1", false)]) == Back
    ensures Back.store.sessions["s1"] == Session("t0", "Mom", Ended, Some("t1"))
    ensures !AudioPlaying(Back) && Back.pending.None? && Back.screen.HomeScreen?
  {
    var es := [StartCall("s1", "t0"), Wait(5000), AcceptCall(false), Tick, EndCall("t1", false)];
    StartStepTaken();
    TimerStepTaken();
    AcceptStepTaken();
    EndStepTaken();
    assert es[1..] == [Wait(5000), AcceptCall(false), Tick, EndCall("t1", false)];
    assert Run(Init(Store([], map[])), es) == Run(Armed, es[1..]);
    assert Run(Armed, es[1..]) == Run(Ringing, es[2..]);
    assert Run(Ringing, es[2..]) == Run(Talking, es[3..]);
    assert Run(Talking, es[3..]) == Run(Step(Talking, Tick), es[4..]);
    assert Run(Step(Talking, Tick), es[4..]) == Run(Back, []);
  }
}

=== FILE: text.dfy ===
/** The few JavaScript string operations the core uses: `startsWith`,
    `Number.prototype.toString()` in base 10 for non-negative integers, and
    `padStart`; plus the digit-string reading that inverts the last two. */
module Text {

  predicate StartsWith(s: string, prefix: string) {
    |prefix| <= |s| && s[..|prefix|] == prefix
  }

  /** `s` starts with `prefix` exactly when it is `prefix` followed by the
      rest of `s`. */
  lemma StartsWithSplit(s: string, prefix: string)
    ensures StartsWith(s, prefix) <==> |prefix| <= |s| && s == prefix + s[|prefix|..]
    ensures StartsWith(prefix + s, prefix)
  {
    if |prefix| <= |s| && s == prefix + s[|prefix|..] {
      assert s[..|prefix|] == prefix;
    }
    assert (prefix + s)[..|prefix|] == prefix;
  }

  predicate IsDigit(c: char) {
    '0' <= c <= '9'
  }

  /** Every character of `s` is a digit (checked from the last one back). */
  predicate AllDigits(s: string)
    decreases |s|
  {
    |s| == 0 || (IsDigit(s[|s| - 1]) && AllDigits(s[..|s| - 1]))
  }

  /** The value of a digit character (0 for any other character). */
  function DigitValue(c: char): (d: nat)
    ensures d < 10
  {
    if IsDigit(c) then c as int - '0' as int else 0
  }

  function DigitChar(d: nat): (c: char)
    requires d < 10
    ensures IsDigit(c) && DigitValue(c) == d
  {
    ('0' as int + d) as char
  }

  /** The base-10 text of `n`, most significant digit first, no leading zero. */
  function Decimal(n: nat): (s: string)
    ensures 1 <= |s| && AllDigits(s)
    ensures |s| == 1 <==> n < 10
    ensures n < 100 ==> |s| <= 2
    ensures n == 0 ==> s == "0"
    ensures n > 0 ==> s[0] != '0'
    decreases n
  {
    if n < 10 then [DigitChar(n)]
    else
      var s := Decimal(n / 10) + [DigitChar(n % 10)];
      assert s[..|s| - 1] == Decimal(n / 10);
      s
  }

  /** The number a digit string denotes, read most significant digit first. */
  function ValueOf(s: string): nat
    decreases |s|
  {
    if |s| == 0 then 0 else ValueOf(s[..|s| - 1]) * 10 + DigitValue(s[|s| - 1])
  }

  /** Reading the decimal text of `n` gives back `n`. */
  lemma {:induction false} ValueOfDecimal(n: nat)
    ensures ValueOf(Decimal(n)) == n
    decreases n
  {
    if n >= 10 {
      var s := Decimal(n);
      assert s[..|s| - 1] == Decimal(n / 10);
      ValueOfDecimal(n / 10);
    }
  }

  /** A leading '0' does not change the value of a digit string. */
  lemma {:induction false} LeadingZero(s: string)
    ensures ValueOf("0" + s) == ValueOf(s)
    ensures AllDigits("0" + s) == AllDigits(s)
    decreases |s|
  {
    var z := "0" + s;
    if |s| > 0 {
      assert z[..|z| - 1] == "0" + s[..|s| - 1];
      LeadingZero(s[..|s| - 1]);
    }
  }

  /** `s.padStart(width, fill)`: `fill` repeated on the left up to `width`. */
  function PadStart(s: string, width: nat, fill: char): (r: string)
    ensures |r| == if |s| >= width then |s| else width
    ensures r[|r| - |s|..] == s
    ensures forall i :: 0 <= i < |r| - |s| ==> r[i] == fill
  {
    if |s| >= width then s else seq(width - |s|, _ => fill) + s
  }
}

=== FILE: wrappers.dfy ===
/** Option and Result, the two failure-carrying datatypes the model uses for
    JavaScript's null/undefined and for store calls whose promise may reject. */
module Wrappers {

  /** `None` stands for JavaScript's null or undefined. */
  datatype Option<+T> = None | Some(value: T)

  /** The outcome of an awaited call: `Failure` is a rejected promise. */
  datatype Result<+R, +E> = Success(value: R) | Failure(error: E)
}
